=== FILE: README.md ===
# CUBA uber-jar runner and embedded Jetty server

This project models the launcher of a CUBA application packaged as an
uber-jar. It covers the two classes that decide what happens when the jar is run.

`ServerRunner` reads the parsed command line and does one of four things:
- prints usage;
- refuses a bad option (a stop port or port that is not a number, a stop
  request without a positive stop port, an environment or configuration file
  that does not exist);
- sends the stop command to a running server;
- configures a `CubaJettyServer` through its setters and starts it.

Along the way `ServerRunner` also:
- turns `-contextName`, `-frontContextName` and `-portalContextName` into
  context paths, defaulting from the jar's base name;
- picks the default port from the `cuba.webPort` entry of one bundled
  `app.properties`. The presence checks choose the file: Web's when the jar
  is a single jar or has Web, else Core's, else Portal's. The port falls back
  to 8080 when no file is chosen, or when the chosen file lacks a usable
  entry; the next module's file is not tried;
- picks the configuration document: the `-jettyConfPath` file when the option
  is non-empty, none when it is empty, and otherwise the bundled `jetty.xml`
  if there is one.

`CubaJettyServer` holds the eight settings. Its `start` does three things in
order:
1. normalises the `app.home` system property;
2. publishes the shutdown listener's `STOP.*` properties;
3. builds the server.

Building the server works like this:
- A Jetty server is created from the configuration document, or else a plain
  server listens on the port.
- One web application context is created per module present, registered in
  the order Core, Web, Portal, Front.
- In a single jar, Core moves to its own path and Portal uses the portal path.
- Each context gets its own class loader, parented on one shared loader,
  which is parented on the server's loader.
- When Front is present, the front base URL and API URL are published as
  system properties.

Modules:
- `Common`: Java null as `Option`, Java `int`, URLs, the module kinds, the
  presence checks, and `Integer.toString` with its inverse.
- `Paths`: the pure path and URL choices.
- `CubaJetty`: the server class, the system-properties object, and the
  specification functions of `start` and `createServer`.
- `ServerRunner`: the decision function `Decide`, the runner `Execute` and
  the stop client `Stop`.

The imperative parts are proved against these specification functions:
- the setters, `Start`, `CreateServer`, `CreateHandlers`,
  `CreateFrontAppContext`, `Stop` and `Execute`;
- the runner's own setter blocks, `ApplyContextPaths` and
  `ApplyConfigurationFiles`.

The properties are lemmas about those functions.

## Model

| member | source | states |
|---|---|---|
| Common.DecimalString | src/main/java/com/haulmont/uberjar/CubaJettyServer.java:118 | `Integer.toString` of a non-negative port is a non-empty string of decimal digits with no leading zero, except "0" itself |
| Common.DecimalRoundTrip | src/main/java/com/haulmont/uberjar/CubaJettyServer.java:118 | reading back the digits written to `STOP.PORT` gives the stop port again |
| Paths.NameToPath | src/main/java/com/haulmont/uberjar/ServerRunner.java:149-179 | an absent or empty name gives no override; "/" gives the root; any other name gives "/" followed by the name; an override always starts with "/" |
| Paths.NameToPathInjective | src/main/java/com/haulmont/uberjar/ServerRunner.java:149-158 | two different non-empty names give different overrides |
| Paths.BasePath | src/main/java/com/haulmont/uberjar/ServerRunner.java:181-190 | the base path is the `-contextName` override when there is one, else "/" followed by the jar's base name, or the root when the jar name is unknown |
| Paths.DerivedPath | src/main/java/com/haulmont/uberjar/ServerRunner.java:191-208 | a front or portal override wins; otherwise the path is the fixed root path ("/app-front" or "/app-portal") when `-contextName` was "/", and exactly the base path followed by the suffix when it was not |
| Paths.CorePath | src/main/java/com/haulmont/uberjar/CubaJettyServer.java:144-153 | outside a single jar Core uses the base path; in a single jar it is "/app-core" for the root base path and otherwise exactly the base path (null rendered as "null") followed by "-core", so it always differs from the base path and starts with "/" when the base path does |
| Paths.FrontBaseUrl | src/main/java/com/haulmont/uberjar/CubaJettyServer.java:202-203 | `cuba.front.baseUrl` always ends with "/"; it is "/" for the root front path, else the front path (null rendered as "null") followed by "/" |
| Paths.ApiUrl | src/main/java/com/haulmont/uberjar/CubaJettyServer.java:204-205 | `cuba.front.apiUrl` always ends with "/rest/"; it is exactly "/rest/" for the root base path, else the base path followed by "/rest/" |
| CubaJetty.SystemProperties.Get | src/main/java/com/haulmont/uberjar/CubaJettyServer.java:110 | reading a system property gives null exactly when the key has never been set, else the value last written |
| CubaJetty.SystemProperties.Set | src/main/java/com/haulmont/uberjar/CubaJettyServer.java:112 | a system-property write replaces that key's value and leaves every other key as it was |
| CubaJetty.SetResourceBase | src/main/java/com/haulmont/uberjar/CubaJettyServer.java:210-215 | the resource base is set to the lookup result for the module directory when the lookup finds it; otherwise the context is unchanged; nothing but the resource base ever changes |
| CubaJetty.AppContextFor | src/main/java/com/haulmont/uberjar/CubaJettyServer.java:176-200 | a module's context serves the given path with a loader named after the module, loading its classes, parented on the shared loader; the configurations are exactly the web.xml configuration followed by the environment configuration, or the web.xml configuration alone for Front; the resource base follows the lookup |
| CubaJetty.HandlerPath | src/main/java/com/haulmont/uberjar/CubaJettyServer.java:144-166 | Core is served under the Core path (moved aside in a single jar), Web under the base path, Portal under the portal path in a single jar and under the base path otherwise, Front under the front path |
| CubaJetty.HandlerIf | src/main/java/com/haulmont/uberjar/CubaJettyServer.java:144-167 | a module contributes one context, built for its own path, environment file and the shared loader, when its presence check holds, and nothing otherwise |
| CubaJetty.ExpectedHandlers | src/main/java/com/haulmont/uberjar/CubaJettyServer.java:143-171 | the handler list is the Core, Web, Portal and Front contributions in that order; `PresentKinds`, `HandlersFollowPresence` and `HandlerPaths` prove what that means |
| CubaJetty.ExpectedServer | src/main/java/com/haulmont/uberjar/CubaJettyServer.java:136-171 | the server is read from the configuration document when one is set, else listens on the configured port; it stops at shutdown and carries the expected handler list |
| CubaJetty.PresentKinds | src/main/java/com/haulmont/uberjar/CubaJettyServer.java:144-167 | a module is in the list exactly when its presence check holds, and the list is strictly ordered Core, Web, Portal, Front |
| CubaJetty.HandlersFollowPresence | src/main/java/com/haulmont/uberjar/CubaJettyServer.java:143-171 | the handler list registers exactly the modules present, each once, in the order Core, Web, Portal, Front |
| CubaJetty.LoaderHierarchy | src/main/java/com/haulmont/uberjar/CubaJettyServer.java:132-193 | the shared loader is parented on the server's loader; every context's loader is named after its module, loads that module's classes and is parented on the shared loader, never directly on the server's |
| CubaJetty.HandlerPaths | src/main/java/com/haulmont/uberjar/CubaJettyServer.java:144-166 | every registered context is served under its module's path: Core's (moved aside in a single jar), the base path for Web, the portal path for Portal in a single jar (else the base path), and the front path for Front |
| CubaJetty.NormaliseAppHome | src/main/java/com/haulmont/uberjar/CubaJettyServer.java:110-116 | the write completes exactly when `app.home` is set and non-empty or `user.dir` exists; afterwards `app.home` is set and never "/"; a set non-root `app.home` is left alone; an unset one takes a non-root `user.dir`; a root value, whether set or taken from `user.dir`, becomes ""; a failed write changes nothing |
| CubaJetty.NormaliseAppHomeFrame | src/main/java/com/haulmont/uberjar/CubaJettyServer.java:110-116 | only `app.home` is written |
| CubaJetty.NormaliseAppHomeStable | src/main/java/com/haulmont/uberjar/CubaJettyServer.java:110-116 | normalising a second time changes nothing, unless the first pass emptied `app.home` |
| CubaJetty.StopProperties | src/main/java/com/haulmont/uberjar/CubaJettyServer.java:117-121 | nothing is written for a stop port that is not positive; otherwise `STOP.PORT` holds the port in decimal with no leading zero, as `Integer.toString` writes it, and with a key `STOP.KEY` holds the key and `STOP.HOST` holds 127.0.0.1; a null key throws after the port was written |
| CubaJetty.StopPropertiesFrame | src/main/java/com/haulmont/uberjar/CubaJettyServer.java:117-121 | only the three `STOP.*` properties are written, and only `STOP.PORT` when the key is null |
| CubaJetty.FrontProperties | src/main/java/com/haulmont/uberjar/CubaJettyServer.java:202-205 | with Front present exactly the two front URL properties are written, the base URL from the front path and the API URL from the base path; without Front nothing changes |
| CubaJetty.StartEffect | src/main/java/com/haulmont/uberjar/CubaJettyServer.java:109-129 | `start` first normalises `app.home`, then writes the stop properties, each step able to end in a null-pointer failure with the properties written so far; only after both does it publish the front URLs and serve; `StartOutcome` and `StartFrame` prove its consequences |
| CubaJetty.StartOutcome | src/main/java/com/haulmont/uberjar/CubaJettyServer.java:109-129 | the server is built exactly when neither property write throws; it is the expected server; with Front the two front URLs are published; nothing beyond `app.home`, the `STOP.*` properties and, with Front, the two front URLs changes, whether or not a write throws |
| CubaJetty.StartFrame | src/main/java/com/haulmont/uberjar/CubaJettyServer.java:109-129 | outside any set of keys that holds `app.home`, the `STOP.*` properties and, with Front, the two front URLs, the system properties after `start` are as before |
| CubaJetty.WriteAppHome | src/main/java/com/haulmont/uberjar/CubaJettyServer.java:110-116 | the `app.home` block leaves the properties and the completion flag that `NormaliseAppHome` specifies |
| CubaJetty.WriteStopProperties | src/main/java/com/haulmont/uberjar/CubaJettyServer.java:117-121 | the shutdown block leaves the properties and the completion flag that `StopProperties` specifies |
| CubaJetty.CubaJettyServer.constructor | src/main/java/com/haulmont/uberjar/CubaJettyServer.java:35-43 | a new server has Java's default field values: both ports 0 and every reference null |
| CubaJetty.CubaJettyServer.SetPort | src/main/java/com/haulmont/uberjar/CubaJettyServer.java:49-51 | sets the port and no other field |
| CubaJetty.CubaJettyServer.SetContextPath | src/main/java/com/haulmont/uberjar/CubaJettyServer.java:57-59 | sets the context path and no other field |
| CubaJetty.CubaJettyServer.SetFrontContextPath | src/main/java/com/haulmont/uberjar/CubaJettyServer.java:65-67 | sets the front context path and no other field |
| CubaJetty.CubaJettyServer.SetPortalContextPath | src/main/java/com/haulmont/uberjar/CubaJettyServer.java:73-75 | sets the portal context path and no other field |
| CubaJetty.CubaJettyServer.SetJettyEnvPathUrl | src/main/java/com/haulmont/uberjar/CubaJettyServer.java:81-83 | sets the environment file URL and no other field |
| CubaJetty.CubaJettyServer.SetJettyConfUrl | src/main/java/com/haulmont/uberjar/CubaJettyServer.java:89-91 | sets the configuration file URL and no other field |
| CubaJetty.CubaJettyServer.SetStopPort | src/main/java/com/haulmont/uberjar/CubaJettyServer.java:97-99 | sets the stop port and no other field |
| CubaJetty.CubaJettyServer.SetStopKey | src/main/java/com/haulmont/uberjar/CubaJettyServer.java:105-107 | sets the stop key and no other field |
| CubaJetty.CubaJettyServer.Start | src/main/java/com/haulmont/uberjar/CubaJettyServer.java:109-129 | the system properties and the result after `start` are those `StartEffect` specifies for the server's settings, so `StartOutcome` applies to them |
| CubaJetty.CubaJettyServer.CreateServer | src/main/java/com/haulmont/uberjar/CubaJettyServer.java:131-174 | the server comes from the configuration document when there is one, else from the port; it stops at shutdown; its handlers are the expected ones; the only property writes are the front URLs when Front is present |
| CubaJetty.CubaJettyServer.CreateHandlers | src/main/java/com/haulmont/uberjar/CubaJettyServer.java:143-171 | the handler list built by the four conditional additions is the expected list, so `HandlersFollowPresence`, `HandlerPaths` and `LoaderHierarchy` apply to it |
| CubaJetty.CubaJettyServer.CreateFrontAppContext | src/main/java/com/haulmont/uberjar/CubaJettyServer.java:191-208 | the Front context is the one `AppContextFor` specifies, and exactly the two front URL properties are written |
| ServerRunner.PortPriority | src/main/java/com/haulmont/uberjar/ServerRunner.java:293-302 | the order in which the properties file is searched for: Web, then Core, then Portal; Front is never searched |
| ServerRunner.PropertiesForPort | src/main/java/com/haulmont/uberjar/ServerRunner.java:293-302 | no properties file is chosen exactly when the jar is not a single jar and has none of Web, Core and Portal; a single jar uses Web's; the chosen module is never Front, and it is present or the jar is a single jar (a single jar uses Web's file even without Web); otherwise it is the first present module in the order Web, Core, Portal |
| ServerRunner.WebPortSetting | src/main/java/com/haulmont/uberjar/ServerRunner.java:272-273 | the `cuba.webPort` value is read only from the chosen properties file, and is absent when no file is chosen, the file is missing or it has no such entry |
| ServerRunner.DefaultWebPort | src/main/java/com/haulmont/uberjar/ServerRunner.java:268-281 | a `cuba.webPort` entry that is set, non-empty and a number is the default port; any port other than 8080 comes from such an entry |
| ServerRunner.StopKeyOf | src/main/java/com/haulmont/uberjar/ServerRunner.java:117-123 | a non-empty `-stopKey` is used as given; an absent or empty one is replaced by the default key; the key is never empty when the default is not |
| ServerRunner.FileArgument | src/main/java/com/haulmont/uberjar/ServerRunner.java:210-241 | an absent or empty path names no file; a non-empty path to a missing file is refused; an existing file gives its file URL |
| ServerRunner.ResolvePaths | src/main/java/com/haulmont/uberjar/ServerRunner.java:146-208 | the base, front and portal paths each begin with "/"; the base comes from `-contextName` or the jar name, front and portal from their overrides or derived from the base |
| ServerRunner.JarBaseName | src/main/java/com/haulmont/uberjar/ServerRunner.java:182-184 | the jar's base name is looked up only when the runner is inside a jar |
| ServerRunner.ConfRef | src/main/java/com/haulmont/uberjar/ServerRunner.java:227-247 | a given `-jettyConfPath` is checked like any file option; without the option the bundled `jetty.xml` is used when there is one, and no document otherwise |
| ServerRunner.Decide | src/main/java/com/haulmont/uberjar/ServerRunner.java:104-131 | usage is shown exactly when parsing failed or help was asked for; the stop command is sent only in stop mode and only to a positive port; a launch happens only outside stop mode |
| ServerRunner.LaunchDecision | src/main/java/com/haulmont/uberjar/ServerRunner.java:132-247 | outside stop mode a `-port` that is not a number is refused first, then a missing environment file, then a missing configuration file; otherwise the server is launched |
| ServerRunner.LaunchSettings | src/main/java/com/haulmont/uberjar/ServerRunner.java:132-208 | the launched server gets the checked ports and key, the resolved paths and the URLs of the files found |
| ServerRunner.LaunchConditions | src/main/java/com/haulmont/uberjar/ServerRunner.java:104-247 | the server is configured and started exactly when the command line parsed, asks for neither help nor stop, every number given parses and every file named exists |
| ServerRunner.SendStopConditions | src/main/java/com/haulmont/uberjar/ServerRunner.java:104-130 | the stop command is sent exactly in stop mode with a `-stopPort` that parses to a positive number, to that port and with the resolved key |
| ServerRunner.StopNeedsStopPort | src/main/java/com/haulmont/uberjar/ServerRunner.java:107-129 | stop mode without `-stopPort` is refused as "not positive", because the missing port counts as -1 |
| ServerRunner.StopKeyNeverEmpty | src/main/java/com/haulmont/uberjar/ServerRunner.java:117-134 | with a non-empty default, the key sent to the stop listener or handed to the server is never empty |
| ServerRunner.LaunchPorts | src/main/java/com/haulmont/uberjar/ServerRunner.java:107-145 | the server gets `-port` when given, else the default web port, and `-stopPort` when given, else -1 |
| ServerRunner.LaunchFiles | src/main/java/com/haulmont/uberjar/ServerRunner.java:210-247 | the server gets the environment file only when it is named and exists; it gets the configuration file when that is named and exists, nothing when the option is empty, and the bundled `jetty.xml` when the option is absent |
| ServerRunner.LaunchPaths | src/main/java/com/haulmont/uberjar/ServerRunner.java:146-208 | the server gets the resolved base, front and portal paths |
| ServerRunner.ContextPathRule | src/main/java/com/haulmont/uberjar/ServerRunner.java:149-190 | the base path is "/" followed by the name for a non-empty name other than "/"; it is the root for "/"; otherwise it is "/" followed by the jar's base name, or the root |
| ServerRunner.FrontPathRule | src/main/java/com/haulmont/uberjar/ServerRunner.java:159-199 | the front path is the `-frontContextName` override when given; else "/app-front" when `-contextName` was "/"; else the base path followed by "-front" |
| ServerRunner.PortalPathRule | src/main/java/com/haulmont/uberjar/ServerRunner.java:170-208 | the portal path is the `-portalContextName` override when given; else "/app-portal" when `-contextName` was "/"; else the base path followed by "-portal" |
| ServerRunner.RootQuirk | src/main/java/com/haulmont/uberjar/ServerRunner.java:181-208 | the root test reads `-contextName` itself: with no name and no jar name the base is the root, yet front and portal become "/-front" and "/-portal", while `-contextName /` gives "/app-front" and "/app-portal" |
| ServerRunner.SingleJarPathsDistinct | src/main/java/com/haulmont/uberjar/ServerRunner.java:181-208 | in a single jar, with no front or portal override, the four modules are served under four different paths |
| ServerRunner.FrontOverrideMayCollide | src/main/java/com/haulmont/uberjar/ServerRunner.java:149-199 | overrides are not checked against each other: a front name equal to the context name gives Front the base path |
| ServerRunner.StopMessageLines | src/main/java/com/haulmont/uberjar/ServerRunner.java:309 | a line reader on the stop message reads exactly the key, then "stop", then nothing, exactly when the key has no line break |
| ServerRunner.FirstLine | src/main/java/com/haulmont/uberjar/ServerRunner.java:312-314 | a line read is the longest prefix without a carriage return or line feed, and it stops at a break or at the end |
| ServerRunner.StopMessage | src/main/java/com/haulmont/uberjar/ServerRunner.java:309 | the stop message is the key line followed by the "stop" line, each ended by a carriage return and line feed |
| ServerRunner.Echo | src/main/java/com/haulmont/uberjar/ServerRunner.java:314-318 | one reply line is echoed, and a "Stopped" line is also reported as such right after it |
| ServerRunner.StopEvents | src/main/java/com/haulmont/uberjar/ServerRunner.java:313-319 | the reply lines are echoed one after another in the order they arrive |
| ServerRunner.EndEvents | src/main/java/com/haulmont/uberjar/ServerRunner.java:322-326 | a closed connection adds nothing, a read timeout adds the timeout message, any other failure adds a failure report |
| ServerRunner.EchoedLines | src/main/java/com/haulmont/uberjar/ServerRunner.java:314-319 | every reply line is echoed once, in order, and nothing else is echoed |
| ServerRunner.ReportedStoppedIff | src/main/java/com/haulmont/uberjar/ServerRunner.java:314-319 | the server is reported as stopped exactly when some reply line is "Stopped" |
| ServerRunner.StoppedReportPlacement | src/main/java/com/haulmont/uberjar/ServerRunner.java:314-318 | every event of the echo loop is an echoed line or a "stopped" report; each report comes right after an echoed "Stopped", and each echoed "Stopped" is followed right away by a report |
| ServerRunner.StopExchange | src/main/java/com/haulmont/uberjar/ServerRunner.java:304-327 | nothing is sent and a failure is reported when the port is out of range or nothing accepts the connection; otherwise the stop message is sent, the reply lines are echoed and the way the connection ended is reported |
| ServerRunner.StopExchangeReports | src/main/java/com/haulmont/uberjar/ServerRunner.java:304-327 | the stop message is sent only to a port in range that accepts the connection; the sent message is the key line followed by "stop"; "stopped" is reported exactly when a reply line is "Stopped" |
| ServerRunner.Stop | src/main/java/com/haulmont/uberjar/ServerRunner.java:304-327 | the stop client's loop produces the exchange `StopExchange` specifies, so `StopExchangeReports` and `EchoedLines` apply to its report |
| ServerRunner.ApplyContextPaths | src/main/java/com/haulmont/uberjar/ServerRunner.java:146-208 | after the path block, the server's three paths are the resolved ones and every other field is unchanged |
| ServerRunner.ApplyConfigurationFiles | src/main/java/com/haulmont/uberjar/ServerRunner.java:210-247 | a missing environment file is refused first, then a missing configuration file; otherwise the server holds the two file URLs and every other field is unchanged |
| ServerRunner.ConfigureServer | src/main/java/com/haulmont/uberjar/ServerRunner.java:132-247 | a new server is configured through its setters; the refusal it reports, or else the settings it ends with, are those `LaunchDecision` specifies |
| ServerRunner.Execute | src/main/java/com/haulmont/uberjar/ServerRunner.java:104-251 | the runner does what `Decide` says: usage, the refusal, or the stop exchange, with the system properties untouched; or it starts a server with the decided settings, whose effect is the one `StartEffect` specifies |

## Behaviour worth knowing

- The front and portal default paths test the `-contextName` value, not the resolved base path (`ServerRunner.RootQuirk`). With no name and no jar name, the base is the root, yet the front path is "/-front" rather than "/app-front".
- Core moves aside when the jar is a single jar (`isSingleJar`), not when Core is merely one of several modules present.
- A module whose resource directory is not found is still registered, with no resource base. It is not skipped.
- An exception while building or starting the Jetty server is caught and printed by `start`, which then returns normally. The process is not ended with an error status.
- A null stop key or a missing `user.dir` makes a property write throw. That exception is outside the `try`, so it ends `start` (`NullPointerThrown`).

## Left out

- Option parsing by commons-cli and the usage text are left out. A parse failure is an absent command line (`parsed == None`). Help, usage and the console messages are not printed; each ends as an `Outcome`.
- `Integer.parseInt`, `File.exists` and `FilenameUtils.getBaseName` are left out. They are function inputs of the `Host` record, so signs, Unicode digits and platform file names are whatever those functions say.
- `ServerRunner.getJarName` and the code-source lookup are left out. The jar name is an input (`Host.jarName`).
- `getJettyConfUrl` and the class-path lookups are left out. The bundled `jetty.xml` URL, each module's `app.properties` contents and each module's resource URL are inputs.
- An exception thrown by `getResource` (turned into "no jetty.xml") is left out.
- `Properties.load` on a malformed or missing stream is left out. A missing file or entry counts as "no entry" and gives port 8080.
- `File.toURI().toURL()` is left out. A named file becomes `FileUrl(path)` as given, not resolved against the working directory, and its `MalformedURLException` is not modelled.
- `setResourceBase`'s `toURI()` conversion and its `URISyntaxException` are left out. The resource base is the looked-up location.
- The presence checks and constants live in a file that is not part of this model.
  - `hasCoreApp`, `hasWebApp`, `hasPortalApp`, `hasFrontApp` and `isSingleJar` are the `Layout` record.
  - `PATH_DELIMITER` is "/".
  - `DEFAULT_STOP_KEY` is the `Host.defaultStopKey` input.
  - The in-jar directory names are the `ModuleKind` values.
- Class loading is left out. `pathsToURLs`, `getAppClassesPath` and `UberJarURLClassLoader` are loader values that record a name, a class path and a parent. Loader identity is value equality.
- Jetty itself is left out: `XmlConfiguration.configure`, `server.start()`, `server.join()` and the stack trace printed when they throw. `createServer` is modelled up to the `Server` value it returns. `Start` returns that server as `Serving`.
- The stop client's socket is left out. That covers the loopback address, the `STOP_TIMEOUT` socket timeout, UTF-8 encoding and the console messages. What listens on each port is the `Host.listener` input.
  - A peer either refuses the connection or returns reply lines that end by closing, by timing out or by another failure.
  - A failure while writing is folded into "another failure".
  - The connection attempt to a port outside 0..65535 fails as `Socket` does.
- The eight getters are left out. They are plain field reads, used directly on the class fields.
- `createEnvConfiguration` is folded into `AppContextFor`. The environment configuration records the environment file URL, or none.
- `Stop` does not model the bytes on the wire. It records the message sent as a string.
- Concurrency, and the JVM's other system properties, are left out.

=== FILE: common.dfy ===
/** Values shared by the runner and the embedded server: optional values (a Java
    reference that may be null), Java's 32-bit int, URLs, the four module kinds,
    the presence checks made on the jar, and Integer.toString for non-negative ints. */
module Common {

  /** A Java reference that may be null: None stands for null. */
  datatype Option<+T> = None | Some(value: T)

  const MinInt: int := -0x8000_0000
  const MaxInt: int := 0x7FFF_FFFF

  /** Java's `int`. */
  type Int32 = x: int | MinInt <= x <= MaxInt

  /** The path delimiter used for context paths and URLs. */
  const Delimiter: string := "/"

  /** A possibly-null String as Java string concatenation renders it. */
  function Render(s: Option<string>): string
  {
    if s.None? then "null" else s.value
  }

  /** A URL handed to the server: a file given on the command line, or a
      resource found on the class path. */
  datatype Url = FileUrl(path: string) | ResourceUrl(location: string)

  /** The four module kinds, declared in the order the server registers them. */
  datatype ModuleKind = Core | Web | Portal | Front
  {
    /** The name given to the module's class loader. */
    function Name(): string
    {
      match this
      case Core => "Core"
      case Web => "Web"
      case Portal => "Portal"
      case Front => "Front"
    }

    /** Position in the registration order. */
    function Rank(): nat
    {
      match this
      case Core => 0
      case Web => 1
      case Portal => 2
      case Front => 3
    }
  }

  /** What the presence checks report for the jar the server runs from:
      one flag per module, and whether all modules share one jar. */
  datatype Layout = Layout(hasCore: bool, hasWeb: bool, hasPortal: bool, hasFront: bool, singleJar: bool)
  {
    predicate Has(k: ModuleKind)
    {
      match k
      case Core => hasCore
      case Web => hasWeb
      case Portal => hasPortal
      case Front => hasFront
    }
  }

  predicate IsDigit(c: char)
  {
    '0' <= c <= '9'
  }

  predicate AllDigits(s: string)
  {
    forall i :: 0 <= i < |s| ==> IsDigit(s[i])
  }

  function DigitChar(d: nat): (c: char)
    requires d < 10
    ensures IsDigit(c)
  {
    ('0' as int + d) as char
  }

  /** The value of a string of decimal digits (the reading direction). */
  function DecimalValue(s: string): nat
    requires AllDigits(s)
  {
    if s == [] then 0 else DecimalValue(s[..|s| - 1]) * 10 + (s[|s| - 1] as int - '0' as int)
  }

  /** Integer.toString of a non-negative int: decimal digits, no leading zero. */
  function DecimalString(n: nat): (r: string)
    ensures |r| > 0 && AllDigits(r)
    ensures r[0] == '0' ==> n == 0 && r == "0"
  {
    if n < 10 then [DigitChar(n)] else DecimalString(n / 10) + [DigitChar(n % 10)]
  }

  /** Reading back what Integer.toString wrote gives the number. */
  lemma {:induction false} DecimalRoundTrip(n: nat)
    ensures DecimalValue(DecimalString(n)) == n
  {
    var s := DecimalString(n);
    if n >= 10 {
      DecimalRoundTrip(n / 10);
      assert s[..|s| - 1] == DecimalString(n / 10);
    }
  }
}

=== FILE: cuba_jetty.dfy ===
/** The embedded server: a CubaJettyServer object holding the eight settings
    the runner fills in through setters, `Start`, which writes the system
    properties and builds the server, and `CreateServer`, which builds one
    web application context per module present, in a fixed order, each with
    its own class loader parented on one shared loader. */
module CubaJetty {
  import opened Common
  import opened Paths

  /** The eight fields of a CubaJettyServer, as one value. */
  datatype Settings = Settings(
    port: Int32,
    stopPort: Int32,
    stopKey: Option<string>,
    contextPath: Option<string>,
    portalContextPath: Option<string>,
    frontContextPath: Option<string>,
    jettyEnvPathUrl: Option<Url>,
    jettyConfUrl: Option<Url>)

  /** Java's default field values: 0 for ints, null for references. */
  const Unset := Settings(0, 0, None, None, None, None, None, None)

  /** What a class loader loads from: the shared libraries, or one module's classes. */
  datatype ClassPath = SharedLibraries | AppClasses(kind: ModuleKind)

  /** The class loaders: the server's own loader, and the named loaders the
      server creates, each with its parent. */
  datatype Loader = ServerLoader | UberJarLoader(name: string, classPath: ClassPath, parent: Loader)

  /** The one shared loader, created once per server and parented on the server's loader. */
  const SharedLoader := UberJarLoader("Shared", SharedLibraries, ServerLoader)

  datatype Configuration = WebXmlConfiguration | EnvConfiguration(jettyEnvXml: Option<Url>)

  /** A web application context as it is handed to the server; `kind` records
      which module it serves. */
  datatype AppContext = AppContext(
    kind: ModuleKind,
    configurations: seq<Configuration>,
    contextPath: Option<string>,
    loader: Loader,
    resourceBase: Option<string>)

  /** Where the server comes from: the jetty configuration document, or a plain server on the port. */
  datatype ServerOrigin = FromXml(jettyConf: Url) | OnPort(port: Int32)

  datatype Server = Server(origin: ServerOrigin, stopAtShutdown: bool, handlers: seq<AppContext>)

  /** How `Start` ends: a null value written into the system properties
      throws out of it, otherwise the server is built and serving. */
  datatype StartResult = NullPointerThrown | Serving(server: Server)

  /** System properties after a sequence of writes, and whether the writes completed. */
  datatype Written = Written(props: map<string, string>, ok: bool)

  datatype Effect = Effect(props: map<string, string>, result: StartResult)

  /** The JVM's system properties. */
  class SystemProperties {
    var props: map<string, string>

    constructor (initial: map<string, string>)
      ensures props == initial
    {
      props := initial;
    }

    function Get(key: string): Option<string>
      reads this
    {
      if key in props then Some(props[key]) else None
    }

    method Set(key: string, value: string)
      modifies this
      ensures props == old(props)[key := value]
    {
      props := props[key := value];
    }
  }

  /** The resource base of a context: set from the resource lookup for the
      module's directory, and left alone when the lookup finds nothing. */
  function SetResourceBase(ctx: AppContext, resources: map<ModuleKind, string>, k: ModuleKind): (r: AppContext)
    ensures r.(resourceBase := ctx.resourceBase) == ctx
    ensures k in resources ==> r.resourceBase == Some(resources[k])
    ensures k !in resources ==> r == ctx
  {
    if k in resources then ctx.(resourceBase := Some(resources[k])) else ctx
  }

  /** The context built for module `k`: a fresh loader named after the
      module, loading its classes, parented on `shared`; the environment
      configuration for every module but Front. */
  function AppContextFor(k: ModuleKind, contextPath: Option<string>, jettyEnvPathUrl: Option<Url>,
                         shared: Loader, resources: map<ModuleKind, string>): (r: AppContext)
    ensures r.kind == k && r.contextPath == contextPath
    ensures r.loader.UberJarLoader? && r.loader.name == k.Name() && r.loader.classPath == AppClasses(k)
    ensures r.loader.parent == shared
    ensures |r.configurations| == (if k == Front then 1 else 2) && r.configurations[0] == WebXmlConfiguration
    ensures EnvConfiguration(jettyEnvPathUrl) in r.configurations <==> k != Front
    ensures r.resourceBase == if k in resources then Some(resources[k]) else None
  {
    var configurations :=
      if k == Front then [WebXmlConfiguration]
      else [WebXmlConfiguration, EnvConfiguration(jettyEnvPathUrl)];
    var loader := UberJarLoader(k.Name(), AppClasses(k), shared);
    SetResourceBase(AppContext(k, configurations, contextPath, loader, None), resources, k)
  }

  /** The path module `k` is served under. */
  function HandlerPath(k: ModuleKind, s: Settings, singleJar: bool): Option<string>
  {
    match k
    case Core => CorePath(s.contextPath, singleJar)
    case Web => s.contextPath
    case Portal => if singleJar then s.portalContextPath else s.contextPath
    case Front => s.frontContextPath
  }

  function HandlerIf(k: ModuleKind, s: Settings, layout: Layout, resources: map<ModuleKind, string>): seq<AppContext>
  {
    if layout.Has(k)
    then [AppContextFor(k, HandlerPath(k, s, layout.singleJar), s.jettyEnvPathUrl, SharedLoader, resources)]
    else []
  }

  /** The handler list: Core, Web, Portal, Front, each when present. */
  function ExpectedHandlers(s: Settings, layout: Layout, resources: map<ModuleKind, string>): seq<AppContext>
  {
    HandlerIf(Core, s, layout, resources) + HandlerIf(Web, s, layout, resources)
    + HandlerIf(Portal, s, layout, resources) + HandlerIf(Front, s, layout, resources)
  }

  function ExpectedServer(s: Settings, layout: Layout, resources: map<ModuleKind, string>): Server
  {
    var origin := if s.jettyConfUrl.Some? then FromXml(s.jettyConfUrl.value) else OnPort(s.port);
    Server(origin, true, ExpectedHandlers(s, layout, resources))
  }

  /** The modules served by a handler list, in registration order. */
  function Kinds(hs: seq<AppContext>): seq<ModuleKind>
  {
    seq(|hs|, i requires 0 <= i < |hs| => hs[i].kind)
  }

  lemma KindsAppend(a: seq<AppContext>, b: seq<AppContext>)
    ensures Kinds(a + b) == Kinds(a) + Kinds(b)
  {
  }

  lemma KindsHandlerIf(k: ModuleKind, s: Settings, layout: Layout, resources: map<ModuleKind, string>)
    ensures Kinds(HandlerIf(k, s, layout, resources)) == if layout.Has(k) then [k] else []
  {
  }

  /** The modules present, in the order Core, Web, Portal, Front. */
  function PresentKinds(layout: Layout): (ks: seq<ModuleKind>)
    ensures forall k: ModuleKind :: k in ks <==> layout.Has(k)
    ensures forall i, j :: 0 <= i < j < |ks| ==> ks[i].Rank() < ks[j].Rank()
  {
    (if layout.hasCore then [Core] else []) + (if layout.hasWeb then [Web] else [])
    + (if layout.hasPortal then [Portal] else []) + (if layout.hasFront then [Front] else [])
  }

  /** Each module is registered exactly when its presence check holds, once,
      and the registered modules come in the order Core, Web, Portal, Front. */
  lemma HandlersFollowPresence(s: Settings, layout: Layout, resources: map<ModuleKind, string>)
    ensures Kinds(ExpectedHandlers(s, layout, resources)) == PresentKinds(layout)
  {
    var c, w, p, f := HandlerIf(Core, s, layout, resources), HandlerIf(Web, s, layout, resources),
                      HandlerIf(Portal, s, layout, resources), HandlerIf(Front, s, layout, resources);
    KindsAppend(c, w);
    KindsAppend(c + w, p);
    KindsAppend(c + w + p, f);
    KindsHandlerIf(Core, s, layout, resources);
    KindsHandlerIf(Web, s, layout, resources);
    KindsHandlerIf(Portal, s, layout, resources);
    KindsHandlerIf(Front, s, layout, resources);
  }

  /** The loader hierarchy: the shared loader is parented on the server's
      loader, and every module loader is named after its module, loads that
      module's classes and is parented on the shared loader, never directly
      on the server's loader. */
  lemma LoaderHierarchy(s: Settings, layout: Layout, resources: map<ModuleKind, string>)
    ensures SharedLoader.parent == ServerLoader
    ensures var hs := ExpectedHandlers(s, layout, resources);
      forall i :: 0 <= i < |hs| ==>
        && hs[i].loader == UberJarLoader(hs[i].kind.Name(), AppClasses(hs[i].kind), SharedLoader)
        && hs[i].loader.parent != ServerLoader
  {
    var hs := ExpectedHandlers(s, layout, resources);
    forall i | 0 <= i < |hs|
      ensures hs[i].loader == UberJarLoader(hs[i].kind.Name(), AppClasses(hs[i].kind), SharedLoader)
    {
    }
  }

  /** Every registered context is served under its module's path. */
  lemma HandlerPaths(s: Settings, layout: Layout, resources: map<ModuleKind, string>)
    ensures var hs := ExpectedHandlers(s, layout, resources);
      forall i :: 0 <= i < |hs| ==> hs[i].contextPath == HandlerPath(hs[i].kind, s, layout.singleJar)
  {
  }

  predicate AppHomeSet(props: map<string, string>)
  {
    "app.home" in props && props["app.home"] != ""
  }

  /** `app.home`: an unset or empty value is replaced by `user.dir` (a
      missing `user.dir` makes that write throw), then the root becomes "". */
  function NormaliseAppHome(props: map<string, string>): (w: Written)
    ensures w.ok <==> AppHomeSet(props) || "user.dir" in props
    ensures !w.ok ==> w.props == props
    ensures w.ok ==> "app.home" in w.props && w.props["app.home"] != Delimiter
    ensures AppHomeSet(props) && props["app.home"] != Delimiter ==> w.props == props
    ensures w.ok && !AppHomeSet(props) && props["user.dir"] != Delimiter ==> w.props["app.home"] == props["user.dir"]
    ensures w.ok && (if AppHomeSet(props) then props["app.home"] else props["user.dir"]) == Delimiter ==>
      w.props["app.home"] == ""
  {
    if !AppHomeSet(props) && "user.dir" !in props then Written(props, false)
    else
      var home := if AppHomeSet(props) then props["app.home"] else props["user.dir"];
      Written(props["app.home" := if home == Delimiter then "" else home], true)
  }

  /** Only `app.home` is written. */
  lemma NormaliseAppHomeFrame(props: map<string, string>)
    ensures NormaliseAppHome(props).props - {"app.home"} == props - {"app.home"}
  {
  }

  /** Normalising again changes nothing, unless the first pass left `app.home`
      empty (the root), which a second pass would read as unset. */
  lemma NormaliseAppHomeStable(props: map<string, string>)
    requires NormaliseAppHome(props).ok
    requires NormaliseAppHome(props).props["app.home"] != ""
    ensures NormaliseAppHome(NormaliseAppHome(props).props) == NormaliseAppHome(props)
  {
  }

  /** The shutdown listener's properties, written only for a positive stop
      port: the port in decimal, then the key (a null key throws after the
      port was written), then the host. */
  function StopProperties(props: map<string, string>, stopPort: Int32, stopKey: Option<string>): (w: Written)
    ensures w.ok <==> stopPort <= 0 || stopKey.Some?
    ensures stopPort <= 0 ==> w.props == props
    ensures stopPort > 0 ==>
      "STOP.PORT" in w.props && AllDigits(w.props["STOP.PORT"]) && DecimalValue(w.props["STOP.PORT"]) == stopPort
      && w.props["STOP.PORT"][0] != '0'
    ensures stopPort > 0 && stopKey.Some? ==>
      "STOP.KEY" in w.props && w.props["STOP.KEY"] == stopKey.value
      && "STOP.HOST" in w.props && w.props["STOP.HOST"] == "127.0.0.1"
  {
    if stopPort <= 0 then Written(props, true)
    else
      var withPort := props["STOP.PORT" := DecimalString(stopPort)];
      DecimalRoundTrip(stopPort);
      if stopKey.None? then Written(withPort, false)
      else Written(withPort["STOP.KEY" := stopKey.value]["STOP.HOST" := "127.0.0.1"], true)
  }

  /** Only the three shutdown properties are written, and a null key stops
      the writes after the port. */
  lemma StopPropertiesFrame(props: map<string, string>, stopPort: Int32, stopKey: Option<string>)
    ensures var w := StopProperties(props, stopPort, stopKey);
      && w.props - {"STOP.PORT", "STOP.KEY", "STOP.HOST"} == props - {"STOP.PORT", "STOP.KEY", "STOP.HOST"}
      && (stopKey.None? ==> w.props - {"STOP.PORT"} == props - {"STOP.PORT"})
  {
  }

  /** The two front URLs, published when the Front module is present. */
  function FrontProperties(props: map<string, string>, s: Settings, hasFront: bool): map<string, string>
  {
    if !hasFront then props
    else props["cuba.front.baseUrl" := FrontBaseUrl(s.frontContextPath)]["cuba.front.apiUrl" := ApiUrl(s.contextPath)]
  }

  /** What `Start` does to the system properties and what it yields. */
  function StartEffect(props: map<string, string>, s: Settings, layout: Layout, resources: map<ModuleKind, string>): Effect
  {
    var home := NormaliseAppHome(props);
    if !home.ok then Effect(home.props, NullPointerThrown)
    else
      var stop := StopProperties(home.props, s.stopPort, s.stopKey);
      if !stop.ok then Effect(stop.props, NullPointerThrown)
      else Effect(FrontProperties(stop.props, s, layout.hasFront), Serving(ExpectedServer(s, layout, resources)))
  }

  /** The properties `start` itself may write. */
  const StartKeys: set<string> := {"app.home", "STOP.PORT", "STOP.KEY", "STOP.HOST"}

  /** The properties the Front context publishes. */
  const FrontUrlKeys: set<string> := {"cuba.front.baseUrl", "cuba.front.apiUrl"}

  /** The server is built exactly when neither property write throws; it then
      publishes the front URLs when Front is present. Nothing else is touched
      beyond `app.home`, the shutdown properties and, with Front, the two URLs. */
  lemma StartOutcome(props: map<string, string>, s: Settings, layout: Layout, resources: map<ModuleKind, string>)
    ensures var e := StartEffect(props, s, layout, resources);
      && (e.result.Serving? <==> (AppHomeSet(props) || "user.dir" in props) && (s.stopPort <= 0 || s.stopKey.Some?))
      && (e.result.Serving? ==> e.result.server == ExpectedServer(s, layout, resources))
      && (e.result.Serving? && layout.hasFront ==>
            && "cuba.front.baseUrl" in e.props && e.props["cuba.front.baseUrl"] == FrontBaseUrl(s.frontContextPath)
            && "cuba.front.apiUrl" in e.props && e.props["cuba.front.apiUrl"] == ApiUrl(s.contextPath))
      && (!layout.hasFront ==> e.props - StartKeys == props - StartKeys)
      && (layout.hasFront ==> e.props - (StartKeys + FrontUrlKeys) == props - (StartKeys + FrontUrlKeys))
  {
    StartFrame(props, s, layout, resources, if layout.hasFront then StartKeys + FrontUrlKeys else StartKeys);
  }

  /** The frame of `start`: outside the keys it may write, the properties are
      as before. */
  lemma StartFrame(props: map<string, string>, s: Settings, layout: Layout, resources: map<ModuleKind, string>,
                   frame: set<string>)
    requires StartKeys <= frame
    requires layout.hasFront ==> FrontUrlKeys <= frame
    ensures StartEffect(props, s, layout, resources).props - frame == props - frame
  {
    var home := NormaliseAppHome(props);
    NormaliseAppHomeFrame(props);
    WidenFrame(props, home.props, {"app.home"}, frame);
    if home.ok {
      var stop := StopProperties(home.props, s.stopPort, s.stopKey);
      StopPropertiesFrame(home.props, s.stopPort, s.stopKey);
      WidenFrame(home.props, stop.props, {"STOP.PORT", "STOP.KEY", "STOP.HOST"}, frame);
      if stop.ok && layout.hasFront {
        TwoWritesFrame(stop.props, "cuba.front.baseUrl", FrontBaseUrl(s.frontContextPath),
                       "cuba.front.apiUrl", ApiUrl(s.contextPath), frame);
      }
    }
  }

  /** Two writes to keys inside a frame leave every key outside it as it was. */
  lemma TwoWritesFrame(m: map<string, string>, k1: string, v1: string, k2: string, v2: string, keys: set<string>)
    requires k1 in keys && k2 in keys
    ensures m[k1 := v1][k2 := v2] - keys == m - keys
  {
    var after := m[k1 := v1][k2 := v2] - keys;
    assert forall k :: k in after <==> k in m - keys;
    assert forall k :: k in after ==> after[k] == m[k];
  }

  /** A frame that holds for some keys holds for any wider set of keys. */
  lemma WidenFrame(before: map<string, string>, after: map<string, string>, keys: set<string>, wider: set<string>)
    requires after - keys == before - keys && keys <= wider
    ensures after - wider == before - wider
  {
    forall k
      ensures k in after - wider <==> k in before - wider
      ensures k in after - wider ==> (after - wider)[k] == (before - wider)[k]
    {
      if k !in wider {
        assert k in after <==> k in after - keys;
        assert k in before <==> k in before - keys;
        if k in after {
          assert (after - keys)[k] == after[k] && (before - keys)[k] == before[k];
        }
      }
    }
  }

  /** The first block of `start`: `app.home` from `user.dir` when unset or
      empty, then the root written as "". `ok` is false when the write of a
      missing `user.dir` throws. */
  method WriteAppHome(sys: SystemProperties) returns (ok: bool)
    modifies sys
    ensures Written(sys.props, ok) == NormaliseAppHome(old(sys.props))
  {
    var appHome := sys.Get("app.home");
    if appHome.None? || appHome.value == "" {
      var userDir := sys.Get("user.dir");
      if userDir.None? {
        return false;
      }
      sys.Set("app.home", userDir.value);
    }
    if sys.Get("app.home") == Some(Delimiter) {
      sys.Set("app.home", "");
    }
    ok := true;
  }

  /** The second block of `start`: the shutdown properties for a positive
      stop port. `ok` is false when the write of a null key throws. */
  method WriteStopProperties(sys: SystemProperties, stopPort: Int32, stopKey: Option<string>) returns (ok: bool)
    modifies sys
    ensures Written(sys.props, ok) == StopProperties(old(sys.props), stopPort, stopKey)
  {
    if stopPort > 0 {
      sys.Set("STOP.PORT", DecimalString(stopPort));
      if stopKey.None? {
        return false;
      }
      sys.Set("STOP.KEY", stopKey.value);
      sys.Set("STOP.HOST", "127.0.0.1");
    }
    ok := true;
  }

  class CubaJettyServer {
    var port: Int32
    var stopPort: Int32
    var stopKey: Option<string>
    var contextPath: Option<string>
    var portalContextPath: Option<string>
    var frontContextPath: Option<string>
    var jettyEnvPathUrl: Option<Url>
    var jettyConfUrl: Option<Url>

    /** The eight fields as one value. */
    function Snapshot(): Settings
      reads this
    {
      Settings(port, stopPort, stopKey, contextPath, portalContextPath, frontContextPath, jettyEnvPathUrl, jettyConfUrl)
    }

    constructor ()
      ensures Snapshot() == Unset
    {
      port, stopPort := 0, 0;
      stopKey, contextPath, portalContextPath, frontContextPath := None, None, None, None;
      jettyEnvPathUrl, jettyConfUrl := None, None;
    }

    method SetPort(port: Int32)
      modifies this`port
      ensures Snapshot() == old(Snapshot()).(port := port)
    {
      this.port := port;
    }

    method SetStopPort(stopPort: Int32)
      modifies this`stopPort
      ensures Snapshot() == old(Snapshot()).(stopPort := stopPort)
    {
      this.stopPort := stopPort;
    }

    method SetStopKey(stopKey: Option<string>)
      modifies this`stopKey
      ensures Snapshot() == old(Snapshot()).(stopKey := stopKey)
    {
      this.stopKey := stopKey;
    }

    method SetContextPath(contextPath: Option<string>)
      modifies this`contextPath
      ensures Snapshot() == old(Snapshot()).(contextPath := contextPath)
    {
      this.contextPath := contextPath;
    }

    method SetPortalContextPath(portalContextPath: Option<string>)
      modifies this`portalContextPath
      ensures Snapshot() == old(Snapshot()).(portalContextPath := portalContextPath)
    {
      this.portalContextPath := portalContextPath;
    }

    method SetFrontContextPath(frontContextPath: Option<string>)
      modifies this`frontContextPath
      ensures Snapshot() == old(Snapshot()).(frontContextPath := frontContextPath)
    {
      this.frontContextPath := frontContextPath;
    }

    method SetJettyEnvPathUrl(jettyEnvPathUrl: Option<Url>)
      modifies this`jettyEnvPathUrl
      ensures Snapshot() == old(Snapshot()).(jettyEnvPathUrl := jettyEnvPathUrl)
    {
      this.jettyEnvPathUrl := jettyEnvPathUrl;
    }

    method SetJettyConfUrl(jettyConfUrl: Option<Url>)
      modifies this`jettyConfUrl
      ensures Snapshot() == old(Snapshot()).(jettyConfUrl := jettyConfUrl)
    {
      this.jettyConfUrl := jettyConfUrl;
    }

    /** Normalises `app.home`, publishes the shutdown settings when a stop
        port is set, then builds the server. `layout` is what the presence
        checks report and `resources` what the resource lookup finds for each
        module directory. */
    method Start(sys: SystemProperties, layout: Layout, resources: map<ModuleKind, string>) returns (result: StartResult)
      modifies sys
      ensures Effect(sys.props, result) == StartEffect(old(sys.props), Snapshot(), layout, resources)
    {
      var ok := WriteAppHome(sys);
      if !ok {
        return NullPointerThrown;
      }
      ok := WriteStopProperties(sys, stopPort, stopKey);
      if !ok {
        return NullPointerThrown;
      }
      var server := CreateServer(sys, layout, resources);
      result := Serving(server);
    }

    /** A server from the configuration document when there is one, else a
        plain server on the port; stopped with the JVM; its handlers as
        `CreateHandlers` builds them. */
    method CreateServer(sys: SystemProperties, layout: Layout, resources: map<ModuleKind, string>) returns (server: Server)
      modifies sys
      ensures server == ExpectedServer(Snapshot(), layout, resources)
      ensures sys.props == FrontProperties(old(sys.props), Snapshot(), layout.hasFront)
    {
      var shared := UberJarLoader("Shared", SharedLibraries, ServerLoader);
      var origin := if jettyConfUrl.Some? then FromXml(jettyConfUrl.value) else OnPort(port);
      var handlers := CreateHandlers(sys, shared, layout, resources);
      server := Server(origin, true, handlers);
    }

    /** The handler list, built by successive additions: Core (moved aside
        in a single jar), Web, Portal (its own path in a single jar), Front. */
    method CreateHandlers(sys: SystemProperties, shared: Loader, layout: Layout, resources: map<ModuleKind, string>) returns (handlers: seq<AppContext>)
      requires shared == SharedLoader
      modifies sys
      ensures handlers == ExpectedHandlers(Snapshot(), layout, resources)
      ensures sys.props == FrontProperties(old(sys.props), Snapshot(), layout.hasFront)
    {
      var st := Snapshot();
      ghost var c, w, p, f := HandlerIf(Core, st, layout, resources), HandlerIf(Web, st, layout, resources),
                              HandlerIf(Portal, st, layout, resources), HandlerIf(Front, st, layout, resources);
      handlers := [];
      if layout.hasCore {
        var coreContextPath := CorePath(st.contextPath, layout.singleJar);
        var core := AppContextFor(Core, coreContextPath, st.jettyEnvPathUrl, shared, resources);
        assert [core] == c;
        handlers := handlers + [core];
      }
      assert handlers == c;
      if layout.hasWeb {
        var web := AppContextFor(Web, st.contextPath, st.jettyEnvPathUrl, shared, resources);
        assert [web] == w;
        handlers := handlers + [web];
      }
      assert handlers == c + w;
      if layout.hasPortal {
        var portalPath := st.contextPath;
        if layout.singleJar {
          portalPath := st.portalContextPath;
        }
        var portal := AppContextFor(Portal, portalPath, st.jettyEnvPathUrl, shared, resources);
        assert [portal] == p;
        handlers := handlers + [portal];
      }
      assert handlers == c + w + p;
      if layout.hasFront {
        var front := CreateFrontAppContext(sys, shared, resources);
        assert [front] == f;
        handlers := handlers + [front];
      }
      assert handlers == c + w + p + f;
      assert st == Snapshot();
    }

    /** The Front context, which also publishes where the front end and its
        REST API live. */
    method CreateFrontAppContext(sys: SystemProperties, shared: Loader, resources: map<ModuleKind, string>)
      returns (ctx: AppContext)
      modifies sys
      ensures ctx == AppContextFor(Front, frontContextPath, jettyEnvPathUrl, shared, resources)
      ensures sys.props == old(sys.props)["cuba.front.baseUrl" := FrontBaseUrl(frontContextPath)]
                                         ["cuba.front.apiUrl" := ApiUrl(contextPath)]
    {
      ctx := AppContextFor(Front, frontContextPath, jettyEnvPathUrl, shared, resources);
      var baseUrl := if frontContextPath == Some(Delimiter) then Delimiter else Render(frontContextPath) + Delimiter;
      sys.Set("cuba.front.baseUrl", baseUrl);
      var apiUrl := if contextPath == Some(Delimiter) then "/rest/" else Render(contextPath) + Delimiter + "rest" + Delimiter;
      sys.Set("cuba.front.apiUrl", apiUrl);
    }
  }
}

=== FILE: paths.dfy ===
/** The context paths and derived URLs: how a command-line name becomes a
    path, how the base, front and portal paths default, which path each module
    is served under, and the two front URLs published as system properties. */
module Paths {
  import opened Common

  /** A context path: starts with the delimiter. */
  predicate IsPath(p: string)
  {
    |p| > 0 && p[0] == '/'
  }

  /** A `-contextName`, `-frontContextName` or `-portalContextName` value
      turned into a path override: absent or empty gives no override, "/"
      stays the root, any other name gets the delimiter in front. */
  function NameToPath(name: Option<string>): (r: Option<string>)
    ensures r.None? <==> name.None? || name.value == ""
    ensures r.Some? ==> IsPath(r.value) && (r.value == Delimiter <==> name.value == Delimiter)
    ensures r.Some? && name.value != Delimiter ==> r.value[1..] == name.value
  {
    if name.None? || name.value == "" then None
    else if name.value == Delimiter then Some(Delimiter)
    else Some(Delimiter + name.value)
  }

  /** Two different non-empty names never give the same override. */
  lemma NameToPathInjective(a: string, b: string)
    requires a != "" && b != "" && a != b
    ensures NameToPath(Some(a)) != NameToPath(Some(b))
  {
    if a != Delimiter && b != Delimiter {
      assert NameToPath(Some(a)).value[1..] == a;
      assert NameToPath(Some(b)).value[1..] == b;
    }
  }

  /** The server's base context path: the override when there is one, else
      the delimiter followed by the jar's base name, else the root. */
  function BasePath(contextOverride: Option<string>, jarBaseName: Option<string>): (r: string)
    ensures contextOverride.Some? ==> r == contextOverride.value
    ensures contextOverride.None? ==> IsPath(r) && r[1..] == (if jarBaseName.Some? then jarBaseName.value else "")
  {
    if contextOverride.Some? then contextOverride.value
    else if jarBaseName.Some? then Delimiter + jarBaseName.value
    else Delimiter
  }

  /** The front or portal path: the override when there is one; otherwise
      `rootPath` when the context option itself was "/", else the resolved
      base path with `suffix` appended. The root test looks at the context
      option, not at the resolved base path. */
  function DerivedPath(override: Option<string>, contextOverride: Option<string>, base: string,
                       rootPath: string, suffix: string): (r: string)
    ensures override.Some? ==> r == override.value
    ensures override.None? && contextOverride == Some(Delimiter) ==> r == rootPath
    ensures override.None? && contextOverride != Some(Delimiter) ==> |r| == |base| + |suffix| && r[..|base|] == base && r[|base|..] == suffix
  {
    if override.Some? then override.value
    else if contextOverride == Some(Delimiter) then rootPath
    else base + suffix
  }

  /** Core's path: the base path, except in a single jar, where Core moves
      aside to "/app-core" (root base) or base + "-core", so it never shares
      the path Web is served under. */
  function CorePath(contextPath: Option<string>, singleJar: bool): (r: Option<string>)
    ensures !singleJar ==> r == contextPath
    ensures singleJar ==> r.Some? && r != contextPath
    ensures singleJar && contextPath.Some? && IsPath(contextPath.value) ==> IsPath(r.value)
    ensures singleJar && contextPath == Some(Delimiter) ==> r == Some("/app-core")
    ensures singleJar && contextPath != Some(Delimiter) ==>
      var base := Render(contextPath);
      |r.value| == |base| + 5 && r.value[..|base|] == base && r.value[|base|..] == "-core"
  {
    if !singleJar then contextPath
    else if contextPath == Some(Delimiter) then
      assert Delimiter + "app-core" == "/app-core";
      Some(Delimiter + "app-core")
    else Some(Render(contextPath) + "-core")
  }

  /** `cuba.front.baseUrl`: the front path with one delimiter appended,
      except the root, which stays "/". */
  function FrontBaseUrl(frontContextPath: Option<string>): (r: string)
    ensures |r| > 0 && r[|r| - 1] == '/'
    ensures frontContextPath == Some(Delimiter) ==> r == Delimiter
    ensures frontContextPath != Some(Delimiter) ==> r[..|r| - 1] == Render(frontContextPath)
  {
    if frontContextPath == Some(Delimiter) then Delimiter else Render(frontContextPath) + Delimiter
  }

  /** `cuba.front.apiUrl`: the base path followed by "/rest/", collapsing to
      "/rest/" when the base path is the root. */
  function ApiUrl(contextPath: Option<string>): (r: string)
    ensures |r| >= 6 && r[|r| - 6..] == "/rest/"
    ensures contextPath == Some(Delimiter) ==> r == "/rest/"
    ensures contextPath != Some(Delimiter) ==> r[..|r| - 6] == Render(contextPath)
  {
    if contextPath == Some(Delimiter) then "/rest/"
    else Render(contextPath) + Delimiter + "rest" + Delimiter
  }
}

=== FILE: server_runner.dfy ===
/** The command-line runner: what it does with a parsed command line (show
    usage, refuse, send the stop command, or configure and start the server),
    how the context paths default, which bundled properties file supplies the
    default port, and the stop client's message and reply classification. */
module ServerRunner {
  import opened Common
  import opened Paths
  import opened CubaJetty

  /** The parsed command line: the two flags, and for each option that takes
      a value, its value, or None when the option is absent. */
  datatype CommandLine = CommandLine(
    help: bool,
    stop: bool,
    port: Option<string>,
    contextName: Option<string>,
    frontContextName: Option<string>,
    portalContextName: Option<string>,
    jettyEnvPath: Option<string>,
    jettyConfPath: Option<string>,
    stopPort: Option<string>,
    stopKey: Option<string>)

  /** How the stop listener's reply stream ends: closed by the server, the
      read timing out, or any other I/O failure. */
  datatype StopEnd = Closed | TimedOut | Broken

  /** What listens on a local port: nothing (the connection fails), or a
      peer that replies with some lines and then ends its stream. */
  datatype StopPeer = Unreachable | Replies(lines: seq<string>, end: StopEnd)

  /** Everything the runner learns from its environment: the presence checks,
      the jar's file name, the base-name, file-existence and integer-parsing
      functions, the bundled `app.properties` files and module resources
      found on the class path, the bundled `jetty.xml`, the default stop key,
      and what listens on each local port. */
  datatype Host = Host(
    layout: Layout,
    jarName: Option<string>,
    baseName: string -> string,
    fileExists: string -> bool,
    parseInt: string -> Option<Int32>,
    appProperties: map<ModuleKind, map<string, string>>,
    resources: map<ModuleKind, string>,
    jettyXml: Option<Url>,
    defaultStopKey: string,
    listener: Int32 -> StopPeer)

  /** The port used when the properties file names none. */
  const FallbackPort: Int32 := 8080

  /** The search order for the properties file: Web first, then Core, then Portal. */
  function PortPriority(k: ModuleKind): nat
  {
    match k
    case Web => 0
    case Core => 1
    case Portal => 2
    case Front => 3
  }

  /** The module whose bundled `app.properties` supplies the default port:
      Web when the jar holds every module or has Web, else Core, else Portal,
      else none. */
  function PropertiesForPort(layout: Layout): (r: Option<ModuleKind>)
    ensures r.None? <==> !layout.singleJar && !layout.hasWeb && !layout.hasCore && !layout.hasPortal
    ensures layout.singleJar ==> r == Some(Web)
    ensures r.Some? ==> r.value != Front && (layout.Has(r.value) || layout.singleJar)
    ensures r.Some? ==> forall k: ModuleKind :: k != Front && layout.Has(k) ==> PortPriority(r.value) <= PortPriority(k)
  {
    if layout.singleJar || layout.hasWeb then Some(Web)
    else if layout.hasCore then Some(Core)
    else if layout.hasPortal then Some(Portal)
    else None
  }

  /** `cuba.webPort` in the chosen properties file, when the file exists and has the entry. */
  function WebPortSetting(layout: Layout, appProperties: map<ModuleKind, map<string, string>>): Option<string>
  {
    var k := PropertiesForPort(layout);
    if k.Some? && k.value in appProperties && "cuba.webPort" in appProperties[k.value]
    then Some(appProperties[k.value]["cuba.webPort"])
    else None
  }

  /** The default port: `cuba.webPort` from the chosen file when it is set,
      non-empty and a number; 8080 on every failure (no file chosen, file
      missing, entry missing or empty, not a number). */
  function DefaultWebPort(layout: Layout, appProperties: map<ModuleKind, map<string, string>>,
                          parseInt: string -> Option<Int32>): (p: Int32)
    ensures var v := WebPortSetting(layout, appProperties);
      v.Some? && v.value != "" && parseInt(v.value).Some? ==> p == parseInt(v.value).value
    ensures var v := WebPortSetting(layout, appProperties);
      p != FallbackPort ==> v.Some? && v.value != "" && parseInt(v.value) == Some(p)
  {
    var v := WebPortSetting(layout, appProperties);
    if v.Some? && v.value != "" && parseInt(v.value).Some? then parseInt(v.value).value else FallbackPort
  }

  /** The stop key: the `-stopKey` value unless it is absent or empty, when the default is used. */
  function StopKeyOf(stopKey: Option<string>, defaultKey: string): (k: string)
    ensures stopKey.Some? && stopKey.value != "" ==> k == stopKey.value
    ensures stopKey.None? || stopKey.value == "" ==> k == defaultKey
    ensures defaultKey != "" ==> k != ""
  {
    if stopKey.None? || stopKey.value == "" then defaultKey else stopKey.value
  }

  /** The three context paths the runner hands to the server. */
  datatype ContextPaths = ContextPaths(context: string, front: string, portal: string)

  /** The base path from `-contextName` or the jar's base name, and the
      front and portal paths from their options or derived from the base. */
  function ResolvePaths(cmd: CommandLine, jarBaseName: Option<string>): (p: ContextPaths)
    ensures IsPath(p.context) && IsPath(p.front) && IsPath(p.portal)
  {
    var contextOverride := NameToPath(cmd.contextName);
    var base := BasePath(contextOverride, jarBaseName);
    ContextPaths(
      base,
      DerivedPath(NameToPath(cmd.frontContextName), contextOverride, base, Delimiter + "app-front", "-front"),
      DerivedPath(NameToPath(cmd.portalContextName), contextOverride, base, Delimiter + "app-portal", "-portal"))
  }

  function JarBaseName(host: Host): Option<string>
  {
    if host.jarName.Some? then Some(host.baseName(host.jarName.value)) else None
  }

  /** A file option after its existence check. */
  datatype FileRef = NoFile | Found(url: Url) | MissingFile
  {
    function Url(): Option<Url>
    {
      if Found? then Some(url) else None
    }
  }

  /** `-jettyEnvPath` or a given `-jettyConfPath`: absent or empty names no
      file, an existing file gives its URL, anything else is refused. */
  function FileArgument(path: Option<string>, fileExists: string -> bool): (r: FileRef)
    ensures r.NoFile? <==> path.None? || path.value == ""
    ensures r.MissingFile? <==> path.Some? && path.value != "" && !fileExists(path.value)
    ensures r.Found? ==> fileExists(path.value) && r.url == FileUrl(path.value)
  {
    if path.None? || path.value == "" then NoFile
    else if !fileExists(path.value) then MissingFile
    else Found(FileUrl(path.value))
  }

  /** The configuration document: the `-jettyConfPath` file when the option
      is given, else the bundled `jetty.xml` when there is one. */
  function ConfRef(path: Option<string>, fileExists: string -> bool, jettyXml: Option<Url>): FileRef
  {
    if path.Some? then FileArgument(path, fileExists)
    else if jettyXml.Some? then Found(jettyXml.value)
    else NoFile
  }

  /** Why the runner prints usage and stops. */
  datatype Refusal = StopPortNotNumber | StopPortNotPositive | PortNotNumber | JettyEnvPathMissing | JettyConfMissing

  /** What a command line makes the runner do. */
  datatype Decision = ShowUsage | Refuse(reason: Refusal) | SendStop(port: Int32, key: string) | Launch(settings: Settings)

  /** The runner's decision, checking in the order it does: help or a parse
      failure, the stop port, stop mode, the port, the environment file, the
      configuration file. */
  function Decide(parsed: Option<CommandLine>, host: Host): (d: Decision)
    ensures d.ShowUsage? <==> parsed.None? || parsed.value.help
    ensures d.SendStop? ==> parsed.value.stop && d.port > 0
    ensures d.Launch? ==> !parsed.value.stop
  {
    if parsed.None? || parsed.value.help then ShowUsage
    else
      var cmd := parsed.value;
      if cmd.stopPort.Some? && host.parseInt(cmd.stopPort.value).None? then Refuse(StopPortNotNumber)
      else
        var stopPort: Int32 := if cmd.stopPort.Some? then host.parseInt(cmd.stopPort.value).value else -1;
        var stopKey := StopKeyOf(cmd.stopKey, host.defaultStopKey);
        if cmd.stop then
          if stopPort <= 0 then Refuse(StopPortNotPositive) else SendStop(stopPort, stopKey)
        else LaunchDecision(cmd, host, stopPort, stopKey)
  }

  /** The rest of the decision outside stop mode: the port, then the two files. */
  function LaunchDecision(cmd: CommandLine, host: Host, stopPort: Int32, stopKey: string): Decision
  {
    if cmd.port.Some? && host.parseInt(cmd.port.value).None? then Refuse(PortNotNumber)
    else
      var port: Int32 :=
        if cmd.port.Some? then host.parseInt(cmd.port.value).value
        else DefaultWebPort(host.layout, host.appProperties, host.parseInt);
      if FileArgument(cmd.jettyEnvPath, host.fileExists).MissingFile? then Refuse(JettyEnvPathMissing)
      else if ConfRef(cmd.jettyConfPath, host.fileExists, host.jettyXml).MissingFile? then Refuse(JettyConfMissing)
      else Launch(LaunchSettings(cmd, host, port, stopPort, stopKey))
  }

  /** The settings handed to the server once every check has passed. */
  function LaunchSettings(cmd: CommandLine, host: Host, port: Int32, stopPort: Int32, stopKey: string): Settings
  {
    var paths := ResolvePaths(cmd, JarBaseName(host));
    Settings(port, stopPort, Some(stopKey), Some(paths.context), Some(paths.portal), Some(paths.front),
             FileArgument(cmd.jettyEnvPath, host.fileExists).Url(),
             ConfRef(cmd.jettyConfPath, host.fileExists, host.jettyXml).Url())
  }

  /** The server is configured and started exactly when the command line
      parsed, asks for neither help nor stop, every number given parses, and
      every file named exists. */
  lemma LaunchConditions(parsed: Option<CommandLine>, host: Host)
    ensures Decide(parsed, host).Launch? <==>
      && parsed.Some? && !parsed.value.help && !parsed.value.stop
      && (parsed.value.stopPort.None? || host.parseInt(parsed.value.stopPort.value).Some?)
      && (parsed.value.port.None? || host.parseInt(parsed.value.port.value).Some?)
      && (parsed.value.jettyEnvPath.None? || parsed.value.jettyEnvPath.value == ""
          || host.fileExists(parsed.value.jettyEnvPath.value))
      && (parsed.value.jettyConfPath.None? || parsed.value.jettyConfPath.value == ""
          || host.fileExists(parsed.value.jettyConfPath.value))
  {
    if parsed.Some? {
      var cmd := parsed.value;
      var env := FileArgument(cmd.jettyEnvPath, host.fileExists);
      var conf := ConfRef(cmd.jettyConfPath, host.fileExists, host.jettyXml);
      assert conf.MissingFile? <==> cmd.jettyConfPath.Some? && cmd.jettyConfPath.value != ""
                                    && !host.fileExists(cmd.jettyConfPath.value);
    }
  }

  /** The stop command is sent exactly in stop mode with a `-stopPort` that
      parses to a positive number; an absent `-stopPort` counts as -1. */
  lemma SendStopConditions(parsed: Option<CommandLine>, host: Host)
    ensures Decide(parsed, host).SendStop? <==>
      && parsed.Some? && !parsed.value.help && parsed.value.stop
      && parsed.value.stopPort.Some? && host.parseInt(parsed.value.stopPort.value).Some?
      && host.parseInt(parsed.value.stopPort.value).value > 0
    ensures Decide(parsed, host).SendStop? ==>
      && Decide(parsed, host).port == host.parseInt(parsed.value.stopPort.value).value
      && Decide(parsed, host).key == StopKeyOf(parsed.value.stopKey, host.defaultStopKey)
  {
  }

  /** Stop mode without `-stopPort` is refused, not sent to port -1. */
  lemma StopNeedsStopPort(cmd: CommandLine, host: Host)
    requires !cmd.help && cmd.stop && cmd.stopPort.None?
    ensures Decide(Some(cmd), host) == Refuse(StopPortNotPositive)
  {
  }

  /** With a non-empty default, the stop key that is sent or handed to the server is never empty. */
  lemma StopKeyNeverEmpty(parsed: Option<CommandLine>, host: Host)
    requires host.defaultStopKey != ""
    ensures Decide(parsed, host).SendStop? ==> Decide(parsed, host).key != ""
    ensures Decide(parsed, host).Launch? ==>
      Decide(parsed, host).settings.stopKey.Some? && Decide(parsed, host).settings.stopKey.value != ""
  {
  }

  /** The ports handed to the server: `-port` when given, else the default
      from the properties file; `-stopPort` when given, else -1. */
  lemma LaunchPorts(parsed: Option<CommandLine>, host: Host)
    requires Decide(parsed, host).Launch?
    ensures var s := Decide(parsed, host).settings;
      && (parsed.value.port.Some? ==> Some(s.port) == host.parseInt(parsed.value.port.value))
      && (parsed.value.port.None? ==> s.port == DefaultWebPort(host.layout, host.appProperties, host.parseInt))
      && (parsed.value.stopPort.Some? ==> Some(s.stopPort) == host.parseInt(parsed.value.stopPort.value))
      && (parsed.value.stopPort.None? ==> s.stopPort == -1)
  {
  }

  /** The files handed to the server: the environment file only when named
      and existing; the configuration file when named and existing, nothing
      when the option is empty, the bundled `jetty.xml` when it is absent. */
  lemma LaunchFiles(parsed: Option<CommandLine>, host: Host)
    requires Decide(parsed, host).Launch?
    ensures var s := Decide(parsed, host).settings; var cmd := parsed.value;
      && (cmd.jettyEnvPath.None? || cmd.jettyEnvPath.value == "" ==> s.jettyEnvPathUrl.None?)
      && (cmd.jettyEnvPath.Some? && cmd.jettyEnvPath.value != "" ==>
            host.fileExists(cmd.jettyEnvPath.value) && s.jettyEnvPathUrl == Some(FileUrl(cmd.jettyEnvPath.value)))
      && (cmd.jettyConfPath.None? ==> s.jettyConfUrl == host.jettyXml)
      && (cmd.jettyConfPath == Some("") ==> s.jettyConfUrl.None?)
      && (cmd.jettyConfPath.Some? && cmd.jettyConfPath.value != "" ==>
            host.fileExists(cmd.jettyConfPath.value) && s.jettyConfUrl == Some(FileUrl(cmd.jettyConfPath.value)))
  {
  }

  /** The context paths handed to the server are the resolved ones. */
  lemma LaunchPaths(parsed: Option<CommandLine>, host: Host)
    requires Decide(parsed, host).Launch?
    ensures var s := Decide(parsed, host).settings; var p := ResolvePaths(parsed.value, JarBaseName(host));
      s.contextPath == Some(p.context) && s.frontContextPath == Some(p.front) && s.portalContextPath == Some(p.portal)
  {
  }

  /** The base path: "/" + name for a non-empty name other than "/", the
      root for "/", and otherwise "/" + the jar's base name, or the root
      when the jar name is unknown. */
  lemma ContextPathRule(cmd: CommandLine, jarBaseName: Option<string>)
    ensures var c := ResolvePaths(cmd, jarBaseName).context;
      && (cmd.contextName.Some? && cmd.contextName.value != "" && cmd.contextName.value != Delimiter ==>
            c == Delimiter + cmd.contextName.value)
      && (cmd.contextName == Some(Delimiter) ==> c == Delimiter)
      && (cmd.contextName.None? || cmd.contextName.value == "" ==>
            c == Delimiter + (if jarBaseName.Some? then jarBaseName.value else ""))
  {
    var c := ResolvePaths(cmd, jarBaseName).context;
    if cmd.contextName.Some? && cmd.contextName.value != "" && cmd.contextName.value != Delimiter {
      assert c[1..] == cmd.contextName.value;
      assert c == c[..1] + c[1..];
    }
    if cmd.contextName.None? || cmd.contextName.value == "" {
      assert c == c[..1] + c[1..];
    }
  }

  /** The front path: the `-frontContextName` override when given; else
      "/app-front" when `-contextName` was "/"; else the base path + "-front". */
  lemma FrontPathRule(cmd: CommandLine, jarBaseName: Option<string>)
    ensures var p := ResolvePaths(cmd, jarBaseName);
      && (cmd.frontContextName == Some(Delimiter) ==> p.front == Delimiter)
      && (cmd.frontContextName.Some? && cmd.frontContextName.value != "" && cmd.frontContextName.value != Delimiter ==>
            p.front == Delimiter + cmd.frontContextName.value)
      && (cmd.frontContextName.None? || cmd.frontContextName.value == "" ==>
            p.front == if cmd.contextName == Some(Delimiter) then "/app-front" else p.context + "-front")
  {
    var p := ResolvePaths(cmd, jarBaseName);
    var front := NameToPath(cmd.frontContextName);
    if front.Some? && front.value != Delimiter {
      assert p.front == front.value[..1] + front.value[1..];
    }
  }

  /** The portal path: the `-portalContextName` override when given; else
      "/app-portal" when `-contextName` was "/"; else the base path + "-portal". */
  lemma PortalPathRule(cmd: CommandLine, jarBaseName: Option<string>)
    ensures var p := ResolvePaths(cmd, jarBaseName);
      && (cmd.portalContextName == Some(Delimiter) ==> p.portal == Delimiter)
      && (cmd.portalContextName.Some? && cmd.portalContextName.value != "" && cmd.portalContextName.value != Delimiter ==>
            p.portal == Delimiter + cmd.portalContextName.value)
      && (cmd.portalContextName.None? || cmd.portalContextName.value == "" ==>
            p.portal == if cmd.contextName == Some(Delimiter) then "/app-portal" else p.context + "-portal")
  {
    var p := ResolvePaths(cmd, jarBaseName);
    var portal := NameToPath(cmd.portalContextName);
    if portal.Some? && portal.value != Delimiter {
      assert p.portal == portal.value[..1] + portal.value[1..];
    }
  }

  /** The root test looks at `-contextName` itself, not at the resolved base:
      with no `-contextName` and no jar name the base is the root, yet front
      and portal become "/-front" and "/-portal", while `-contextName /`
      gives "/app-front" and "/app-portal". */
  lemma RootQuirk(cmd: CommandLine)
    requires cmd.frontContextName.None? && cmd.portalContextName.None?
    ensures cmd.contextName.None? ==> ResolvePaths(cmd, None) == ContextPaths("/", "/-front", "/-portal")
    ensures cmd.contextName == Some("/") ==> ResolvePaths(cmd, None) == ContextPaths("/", "/app-front", "/app-portal")
  {
    var p := ResolvePaths(cmd, None);
    if cmd.contextName.None? {
      assert p.context == Delimiter;
      assert p.front == Delimiter + "-front" == "/-front";
      assert p.portal == Delimiter + "-portal" == "/-portal";
    }
    if cmd.contextName == Some("/") {
      assert p.context == Delimiter;
      assert p.front == Delimiter + "app-front" == "/app-front";
      assert p.portal == Delimiter + "app-portal" == "/app-portal";
    }
  }

  /** In a single jar with no front or portal override, the four modules are
      served under four different paths. */
  lemma SingleJarPathsDistinct(parsed: Option<CommandLine>, host: Host)
    requires Decide(parsed, host).Launch?
    requires parsed.value.frontContextName.None? || parsed.value.frontContextName.value == ""
    requires parsed.value.portalContextName.None? || parsed.value.portalContextName.value == ""
    ensures var s := Decide(parsed, host).settings;
      forall a: ModuleKind, b: ModuleKind :: a != b ==> HandlerPath(a, s, true) != HandlerPath(b, s, true)
  {
    var s := Decide(parsed, host).settings;
    var p := ResolvePaths(parsed.value, JarBaseName(host));
    LaunchPaths(parsed, host);
    var n := |p.context|;
    if parsed.value.contextName == Some(Delimiter) {
      assert p.context == "/";
      assert |p.front| == 10 && |p.portal| == 11;
    } else {
      assert |p.front| == n + 6 && |p.portal| == n + 7;
    }
    var core := CorePath(s.contextPath, true).value;
    assert |core| == if p.context == Delimiter then 9 else n + 5;
    forall a: ModuleKind, b: ModuleKind | a != b
      ensures HandlerPath(a, s, true) != HandlerPath(b, s, true)
    {
      assert |HandlerPath(a, s, true).value| != |HandlerPath(b, s, true).value|;
    }
  }

  /** Overrides are not checked against each other: a front name equal to
      the context name makes Front share the base path. */
  lemma FrontOverrideMayCollide(parsed: Option<CommandLine>, host: Host)
    requires Decide(parsed, host).Launch?
    requires parsed.value.frontContextName == parsed.value.contextName
    requires parsed.value.contextName.Some? && parsed.value.contextName.value != ""
    ensures Decide(parsed, host).settings.frontContextPath == Decide(parsed, host).settings.contextPath
  {
  }

  /** What the stop client writes: the key line, then the command line. */
  function StopMessage(key: string): string
  {
    key + "\r\nstop\r\n"
  }

  predicate IsLineBreak(c: char)
  {
    c == '\r' || c == '\n'
  }

  predicate NoLineBreak(s: string)
  {
    forall i :: 0 <= i < |s| ==> !IsLineBreak(s[i])
  }

  /** The first line of `s` as a line reader returns it: everything up to the
      first carriage return or line feed. */
  function FirstLine(s: string): (r: string)
    ensures |r| <= |s| && r == s[..|r|] && NoLineBreak(r)
    ensures |r| < |s| ==> IsLineBreak(s[|r|])
  {
    if s == [] || IsLineBreak(s[0]) then [] else [s[0]] + FirstLine(s[1..])
  }

  /** What follows the first line and its terminator ("\r\n" counts as one). */
  function AfterFirstLine(s: string): string
  {
    var n := |FirstLine(s)|;
    if n == |s| then []
    else if s[n] == '\r' && n + 1 < |s| && s[n + 1] == '\n' then s[n + 2..]
    else s[n + 1..]
  }

  /** A line without breaks followed by a break is read back as itself. */
  lemma FirstLineOf(line: string, rest: string)
    requires NoLineBreak(line) && |rest| > 0 && IsLineBreak(rest[0])
    ensures FirstLine(line + rest) == line
  {
    var s := line + rest;
    var r := FirstLine(s);
    assert s[|line|] == rest[0];
    assert forall i :: 0 <= i < |r| ==> !IsLineBreak(s[i]);
    assert forall i :: 0 <= i < |line| ==> !IsLineBreak(s[i]);
    assert |r| == |line|;
  }

  /** A line ended by "\r\n" is read back as itself, and reading resumes after the "\r\n". */
  lemma CrLfLine(line: string, rest: string)
    requires NoLineBreak(line)
    ensures FirstLine(line + "\r\n" + rest) == line
    ensures AfterFirstLine(line + "\r\n" + rest) == rest
  {
    var s := line + "\r\n" + rest;
    assert s == line + ("\r\n" + rest);
    FirstLineOf(line, "\r\n" + rest);
    assert s[|line|] == '\r' && s[|line| + 1] == '\n';
    assert s[|line| + 2..] == rest;
  }

  /** A listener reading lines from the stop message sees exactly the key,
      then "stop", then nothing, provided the key has no line break; a key
      with a line break is cut short at it. */
  lemma StopMessageLines(key: string)
    ensures FirstLine(StopMessage(key)) == key <==> NoLineBreak(key)
    ensures NoLineBreak(key) ==>
      && FirstLine(AfterFirstLine(StopMessage(key))) == "stop"
      && AfterFirstLine(AfterFirstLine(StopMessage(key))) == ""
  {
    if NoLineBreak(key) {
      assert StopMessage(key) == key + "\r\n" + "stop\r\n";
      CrLfLine(key, "stop\r\n");
      StopLine();
    }
  }

  lemma StopLine()
    ensures FirstLine("stop\r\n") == "stop" && AfterFirstLine("stop\r\n") == ""
  {
    assert "stop\r\n" == "stop" + "\r\n" + "";
    CrLfLine("stop", "");
  }

  /** What the stop client reports on its console. */
  datatype StopEvent = Received(line: string) | ReportedStopped | TimedOutWaiting | Failed

  /** One reply line: echoed, and when it is "Stopped", also reported as such. */
  function Echo(line: string): seq<StopEvent>
  {
    [Received(line)] + (if line == "Stopped" then [ReportedStopped] else [])
  }

  /** The reports for a sequence of reply lines. */
  function StopEvents(lines: seq<string>): seq<StopEvent>
  {
    if lines == [] then [] else StopEvents(lines[..|lines| - 1]) + Echo(lines[|lines| - 1])
  }

  function EndEvents(end: StopEnd): seq<StopEvent>
  {
    match end
    case Closed => []
    case TimedOut => [TimedOutWaiting]
    case Broken => [Failed]
  }

  /** The message sent, if the connection was made, and the reports. */
  datatype StopReport = StopReport(sent: Option<string>, events: seq<StopEvent>)

  /** The largest TCP port; a socket to a port outside 0..MaxPort is refused before connecting. */
  const MaxPort: int := 65535

  /** The stop exchange with whatever listens on `port`: nothing is sent when
      the port is out of range or nothing answers; otherwise the message is
      sent and each reply line reported. */
  function StopExchange(port: Int32, key: string, listener: Int32 -> StopPeer): StopReport
  {
    if port < 0 || port > MaxPort || listener(port).Unreachable? then StopReport(None, [Failed])
    else StopReport(Some(StopMessage(key)), StopEvents(listener(port).lines) + EndEvents(listener(port).end))
  }

  /** The echoed lines, read back from the reports. */
  function ReceivedLines(events: seq<StopEvent>): seq<string>
  {
    if events == [] then []
    else
      var last := events[|events| - 1];
      ReceivedLines(events[..|events| - 1]) + (if last.Received? then [last.line] else [])
  }

  lemma ReceivedLinesSnoc(events: seq<StopEvent>, e: StopEvent)
    ensures ReceivedLines(events + [e]) == ReceivedLines(events) + (if e.Received? then [e.line] else [])
  {
    assert (events + [e])[..|events|] == events;
  }

  /** Echoing one more line adds exactly that line to what was received. */
  lemma ReceivedLinesEcho(events: seq<StopEvent>, line: string)
    ensures ReceivedLines(events + Echo(line)) == ReceivedLines(events) + [line]
  {
    ReceivedLinesSnoc(events, Received(line));
    if line == "Stopped" {
      assert events + Echo(line) == (events + [Received(line)]) + [ReportedStopped];
      ReceivedLinesSnoc(events + [Received(line)], ReportedStopped);
    } else {
      assert events + Echo(line) == events + [Received(line)];
    }
  }

  /** Every reply line is echoed, in order, and nothing else is. */
  lemma {:induction false} EchoedLines(lines: seq<string>)
    ensures ReceivedLines(StopEvents(lines)) == lines
  {
    if lines != [] {
      var init, last := lines[..|lines| - 1], lines[|lines| - 1];
      EchoedLines(init);
      ReceivedLinesEcho(StopEvents(init), last);
      assert lines == init + [last];
    }
  }

  /** Event `i` of `ev` is an echoed line or a "stopped" report; a report
      comes right after an echoed "Stopped", and an echoed "Stopped" is
      followed right away by a report. */
  predicate PlacedAt(ev: seq<StopEvent>, i: int)
    requires 0 <= i < |ev|
  {
    && (ev[i].Received? || ev[i].ReportedStopped?)
    && (ev[i].ReportedStopped? ==> i > 0 && ev[i - 1] == Received("Stopped"))
    && (ev[i] == Received("Stopped") ==> i + 1 < |ev| && ev[i + 1] == ReportedStopped)
  }

  /** Where the reports go: every event of the echo loop is placed as
      PlacedAt describes. */
  lemma {:induction false} StoppedReportPlacement(lines: seq<string>)
    ensures forall i :: 0 <= i < |StopEvents(lines)| ==> PlacedAt(StopEvents(lines), i)
  {
    if lines != [] {
      var init, last := lines[..|lines| - 1], lines[|lines| - 1];
      StoppedReportPlacement(init);
      var a, b := StopEvents(init), Echo(last);
      var ev := StopEvents(lines);
      assert ev == a + b;
      assert forall j :: 0 <= j < |a| ==> PlacedAt(a, j);
      forall i | 0 <= i < |ev|
        ensures PlacedAt(ev, i)
      {
        if i < |a| {
          assert PlacedAt(a, i);
          assert ev[i] == a[i];
          if i + 1 < |a| {
            assert ev[i + 1] == a[i + 1];
          }
          if i > 0 {
            assert ev[i - 1] == a[i - 1];
          }
        } else {
          assert b[0] == Received(last);
          assert |b| == (if last == "Stopped" then 2 else 1);
          assert ev[i] == b[i - |a|];
          if i > |a| {
            assert ev[i - 1] == b[0];
          }
          if i == |a| && last == "Stopped" {
            assert ev[i + 1] == b[1];
          }
        }
      }
    }
  }

  /** The server is reported as stopped exactly when some reply line is "Stopped". */
  lemma {:induction false} ReportedStoppedIff(lines: seq<string>)
    ensures ReportedStopped in StopEvents(lines) <==> "Stopped" in lines
  {
    if lines != [] {
      var init, last := lines[..|lines| - 1], lines[|lines| - 1];
      ReportedStoppedIff(init);
      assert lines == init + [last];
      assert ReportedStopped in Echo(last) <==> last == "Stopped";
    }
  }

  /** The stop message goes only to a port in range that answers, and the
      server is reported as stopped exactly when one of its reply lines is
      "Stopped"; a timeout or failure never counts as that report. */
  lemma StopExchangeReports(port: Int32, key: string, listener: Int32 -> StopPeer)
    ensures var r := StopExchange(port, key, listener);
      && (r.sent.Some? <==> 0 <= port <= MaxPort && listener(port).Replies?)
      && (r.sent.Some? ==> r.sent.value == StopMessage(key))
      && (ReportedStopped in r.events <==> r.sent.Some? && "Stopped" in listener(port).lines)
  {
    if 0 <= port <= MaxPort && listener(port).Replies? {
      var peer := listener(port);
      ReportedStoppedIff(peer.lines);
      assert ReportedStopped !in EndEvents(peer.end);
    }
  }

  /** The stop client: connect to the port, send the message, echo each
      reply line until the stream ends. */
  method Stop(port: Int32, key: string, listener: Int32 -> StopPeer) returns (report: StopReport)
    ensures report == StopExchange(port, key, listener)
  {
    if port < 0 || port > MaxPort {
      return StopReport(None, [Failed]);
    }
    var peer := listener(port);
    if peer.Unreachable? {
      return StopReport(None, [Failed]);
    }
    var message := StopMessage(key);
    var events: seq<StopEvent> := [];
    var i := 0;
    while i < |peer.lines|
      invariant 0 <= i <= |peer.lines|
      invariant events == StopEvents(peer.lines[..i])
    {
      var response := peer.lines[i];
      events := events + [Received(response)];
      if response == "Stopped" {
        events := events + [ReportedStopped];
      }
      assert peer.lines[..i + 1][..i] == peer.lines[..i];
      i := i + 1;
    }
    assert peer.lines[..i] == peer.lines;
    report := StopReport(Some(message), events + EndEvents(peer.end));
  }

  /** The runner's context-path block: the base path from `-contextName` or
      the jar name, then the front and portal paths, each through its setter. */
  method ApplyContextPaths(jettyServer: CubaJettyServer, cmd: CommandLine, jarBaseName: Option<string>)
    modifies jettyServer
    ensures var p := ResolvePaths(cmd, jarBaseName);
      jettyServer.Snapshot() == old(jettyServer.Snapshot()).(contextPath := Some(p.context),
                                                             frontContextPath := Some(p.front),
                                                             portalContextPath := Some(p.portal))
  {
    var contextPath := NameToPath(cmd.contextName);
    var frontContextPath := NameToPath(cmd.frontContextName);
    var portalContextPath := NameToPath(cmd.portalContextName);
    if contextPath.None? {
      if jarBaseName.Some? {
        jettyServer.SetContextPath(Some(Delimiter + jarBaseName.value));
      } else {
        jettyServer.SetContextPath(Some(Delimiter));
      }
    } else {
      jettyServer.SetContextPath(contextPath);
    }
    if frontContextPath.None? {
      if contextPath == Some(Delimiter) {
        jettyServer.SetFrontContextPath(Some(Delimiter + "app-front"));
      } else {
        jettyServer.SetFrontContextPath(Some(Render(jettyServer.contextPath) + "-front"));
      }
    } else {
      jettyServer.SetFrontContextPath(frontContextPath);
    }
    if portalContextPath.None? {
      if contextPath == Some(Delimiter) {
        jettyServer.SetPortalContextPath(Some(Delimiter + "app-portal"));
      } else {
        jettyServer.SetPortalContextPath(Some(Render(jettyServer.contextPath) + "-portal"));
      }
    } else {
      jettyServer.SetPortalContextPath(portalContextPath);
    }
  }

  /** The runner's file block: `-jettyEnvPath` when given and non-empty must
      name an existing file; `-jettyConfPath` likewise, and when it is absent
      the bundled `jetty.xml` is used if there is one. Returns the refusal,
      if any. */
  method ApplyConfigurationFiles(jettyServer: CubaJettyServer, cmd: CommandLine, host: Host)
    returns (refusal: Option<Refusal>)
    requires jettyServer.jettyEnvPathUrl.None? && jettyServer.jettyConfUrl.None?
    modifies jettyServer
    ensures var env := FileArgument(cmd.jettyEnvPath, host.fileExists);
      var conf := ConfRef(cmd.jettyConfPath, host.fileExists, host.jettyXml);
      && (env.MissingFile? ==> refusal == Some(JettyEnvPathMissing))
      && (!env.MissingFile? && conf.MissingFile? ==> refusal == Some(JettyConfMissing))
      && (!env.MissingFile? && !conf.MissingFile? ==>
            refusal.None?
            && jettyServer.Snapshot() == old(jettyServer.Snapshot()).(jettyEnvPathUrl := env.Url(),
                                                                      jettyConfUrl := conf.Url()))
  {
    var env := FileArgument(cmd.jettyEnvPath, host.fileExists);
    if env.MissingFile? {
      return Some(JettyEnvPathMissing);
    }
    if env.Found? {
      jettyServer.SetJettyEnvPathUrl(Some(env.url));
    }
    if cmd.jettyConfPath.Some? {
      var conf := FileArgument(cmd.jettyConfPath, host.fileExists);
      if conf.MissingFile? {
        return Some(JettyConfMissing);
      }
      if conf.Found? {
        jettyServer.SetJettyConfUrl(Some(conf.url));
      }
    } else if host.jettyXml.Some? {
      jettyServer.SetJettyConfUrl(host.jettyXml);
    }
    refusal := None;
  }

  /** The part of the runner that builds the server object: stop port and
      key, the port, the context paths and the files, through the setters,
      stopping at the first refusal. */
  method ConfigureServer(cmd: CommandLine, host: Host, stopPort: Int32, stopKey: string)
    returns (jettyServer: CubaJettyServer, refusal: Option<Refusal>)
    ensures fresh(jettyServer)
    ensures refusal.Some? ==> LaunchDecision(cmd, host, stopPort, stopKey) == Refuse(refusal.value)
    ensures refusal.None? ==> LaunchDecision(cmd, host, stopPort, stopKey) == Launch(jettyServer.Snapshot())
  {
    jettyServer := new CubaJettyServer();
    jettyServer.SetStopPort(stopPort);
    jettyServer.SetStopKey(Some(stopKey));
    if cmd.port.Some? {
      var n := host.parseInt(cmd.port.value);
      if n.None? {
        return jettyServer, Some(PortNotNumber);
      }
      jettyServer.SetPort(n.value);
    } else {
      jettyServer.SetPort(DefaultWebPort(host.layout, host.appProperties, host.parseInt));
    }
    ghost var port := jettyServer.port;
    ApplyContextPaths(jettyServer, cmd, JarBaseName(host));
    refusal := ApplyConfigurationFiles(jettyServer, cmd, host);
    if refusal.None? {
      assert jettyServer.Snapshot() == LaunchSettings(cmd, host, port, stopPort, stopKey);
    }
  }

  /** What running the program came to. */
  datatype Outcome = Usage | Refused(reason: Refusal) | StopRequested(report: StopReport)
                   | Launched(settings: Settings, result: StartResult)

  /** The runner: validate the options, then either send the stop command or
      configure a server through its setters and start it. */
  method Execute(parsed: Option<CommandLine>, host: Host, sys: SystemProperties) returns (outcome: Outcome)
    modifies sys
    ensures var d := Decide(parsed, host);
      && (d.ShowUsage? ==> outcome == Usage)
      && (d.Refuse? ==> outcome == Refused(d.reason))
      && (d.SendStop? ==> outcome == StopRequested(StopExchange(d.port, d.key, host.listener)))
      && (!d.Launch? ==> sys.props == old(sys.props))
      && (d.Launch? ==>
            outcome.Launched? && outcome.settings == d.settings && Effect(sys.props, outcome.result) == StartEffect(old(sys.props), d.settings, host.layout, host.resources))
  {
    if parsed.None? || parsed.value.help {
      return Usage;
    }
    var cmd := parsed.value;
    var stopPort: Int32 := -1;
    if cmd.stopPort.Some? {
      var n := host.parseInt(cmd.stopPort.value);
      if n.None? {
        assert Decide(parsed, host) == Refuse(StopPortNotNumber);
        return Refused(StopPortNotNumber);
      }
      stopPort := n.value;
    }
    var stopKey := cmd.stopKey;
    if stopKey.None? || stopKey.value == "" {
      stopKey := Some(host.defaultStopKey);
    }
    if cmd.stop {
      if stopPort <= 0 {
        assert Decide(parsed, host) == Refuse(StopPortNotPositive);
        return Refused(StopPortNotPositive);
      }
      assert Decide(parsed, host) == SendStop(stopPort, stopKey.value);
      var report := Stop(stopPort, stopKey.value, host.listener);
      return StopRequested(report);
    }
    assert Decide(parsed, host) == LaunchDecision(cmd, host, stopPort, stopKey.value);
    var jettyServer, refusal := ConfigureServer(cmd, host, stopPort, stopKey.value);
    if refusal.Some? {
      return Refused(refusal.value);
    }
    var settings := jettyServer.Snapshot();
    var result := jettyServer.Start(sys, host.layout, host.resources);
    outcome := Launched(settings, result);
  }
}
